=== FILE: README.md ===
# Restaurant promotions: phone numbers, ownership and claim counts

A Dafny model of the logic in a Django REST backend for restaurant promotions
(discount offers that customers claim and later redeem):

- **Phone numbers** (`phone_numbers.dfy`, module `PhoneNumbers`): the
  `PhoneNumber.phone_number` column is a CharField of at most 17 characters. Its
  values must match `^\+?1?\d{9,15}$`. The pattern is modelled element by element
  (`MatchesPattern`). It is also characterised independently (`PhoneShape`): an
  optional `+`, then 9 to 16 digits, where a 16-digit body must start with the
  optional `1`. The field's validation (`Validate`) refuses the empty string as
  blank. Otherwise it collects the regex error and the max-length error. A
  single-pass checker (`CheckPhoneNumber`)
  is proved to agree with it.
- **Restaurant phone reference** (`restaurant_phones.dfy`, module
  `RestaurantPhones`): `Restaurant.phone_number` is a nullable foreign key to
  `PhoneNumber`, absent by default, with on-delete CASCADE. The model is a small
  store of the two tables: insert a number, insert a restaurant, set or clear the
  reference, and delete a number.
- **Promotion records** (`promotions.dfy`, module `Promotions`): promotions (owner,
  offer columns, soft-delete flag), claims, and the lookup through the viewset's
  `deleted=False` queryset (`FindLive`).
- **Ownership** (`permissions.dfy`, module `Permissions`): `IsPromotionOwner`
  grants object permission exactly when the promotion's restaurant is the user's
  restaurant.
- **Claim aggregation** (`aggregates.dfy`, module `Aggregates`): the two raw SQL
  queries as grouped counts. `list_promotions` gives one row per promotion with
  `num_claims`. `details` gives the acting restaurant's promotions with `claimed`
  (unredeemed) and `redeemed` counts. The counts are tied to an independent
  reference, the multiplicity of the promotion key among the claims' keys.
- **Request handlers** (`promotion_viewset.dfy`, module `PromotionViewSet`):
  create, update, destroy, list_promotions and details. Each is a function from
  (store, request) to (store, response). Responses are success with an id, success
  with a message, a row list, 400 with the serializer's errors, 404, a denial
  (unauthenticated, not a restaurant, not the owner), or a server error.

The serializer (`PromotionSerializer`) is not part of this model. It is a
parameter made of four total functions: the validation errors, the row `create()`
builds, the row `update()` makes of an existing one, and what `delete()` leaves in
the row's place. For `delete()` that is either nothing (a hard delete) or a
changed row (a soft delete). The model does not decide which.
Authentication and `IsRestaurant` are opaque booleans on the user.

Three behaviours of the code are worth stating on their own:

- Neither raw query filters on `deleted`. Deleted promotions are listed and counted
  (`ListShowsDeleted`, `ListExample`). Of the handlers modelled, only update and
  destroy, through the viewset's `deleted=False` queryset, skip deleted rows.
- CASCADE deletes the restaurants that refer to a deleted phone number; their rows
  go, not just the reference (`DeletePhoneNumber`).
- The validator's message says "Up to 15 digits allowed". The pattern also admits
  16 digits when the first one is the optional `1` (`SixteenAndSeventeenDigits`).

## Model

| member | source | states |
|---|---|---|
| PhoneNumbers.MatchesPattern | munch/migrations/0003_auto_20160202_0545.py:21 | the regex `^\+?1?\d{9,15}$` element by element; a matching string has 9 to 17 characters and starts with '+' or a digit |
| PhoneNumbers.Validate | munch/migrations/0003_auto_20160202_0545.py:21 | the field reports no error exactly when the pattern matches; the empty string gets only the blank error; any other non-matching value of at most 17 characters gets exactly the format error; an over-long value always carries the format error too, so the length error never appears alone |
| PhoneNumbers.PatternShape | munch/migrations/0003_auto_20160202_0545.py:21 | a string matches `^\+?1?\d{9,15}$` iff it is an optional '+' then 9 to 16 ASCII digits, a 16-digit body starting with '1' |
| PhoneNumbers.OverLongErrors | munch/migrations/0003_auto_20160202_0545.py:21 | a value over 17 characters gets exactly two errors, the format error and then the length error; the length error never comes alone |
| PhoneNumbers.MaxLengthIsTight | munch/migrations/0003_auto_20160202_0545.py:21 | some accepted string has exactly 17 characters: the cap equals the longest string the pattern admits |
| PhoneNumbers.AcceptedDigits | munch/migrations/0003_auto_20160202_0545.py:21 | every character of an accepted number except a leading '+' is a digit, and it holds 9 to 16 digits |
| PhoneNumbers.DigitCountRejected | munch/migrations/0003_auto_20160202_0545.py:21 | a string with more than 16 or fewer than 9 digits is rejected |
| PhoneNumbers.AcceptedExample | munch/migrations/0003_auto_20160202_0545.py:21 | "+12345678901" is accepted |
| PhoneNumbers.RejectedExamples | munch/migrations/0003_auto_20160202_0545.py:21 | "abc123" and the 8-digit "12345678" are rejected |
| PhoneNumbers.SixteenAndSeventeenDigits | munch/migrations/0003_auto_20160202_0545.py:21 | every all-digit string of 17 characters is rejected; every all-digit string of 16 characters is accepted exactly when it starts with '1' |
| PhoneNumbers.CheckPhoneNumber | munch/migrations/0003_auto_20160202_0545.py:21 | a one-pass scan (skip '+', digits to the end, body-length test) accepts exactly the strings the field validation accepts |
| RestaurantPhones.AddPhoneNumber | munch/migrations/0003_auto_20160202_0545.py:17-22 | a number is stored exactly when it matches the pattern, under a fresh key; otherwise the validation errors come back; restaurants are untouched and integrity is kept |
| RestaurantPhones.AddRestaurant | munch/migrations/0003_auto_20160202_0545.py:27 | a new restaurant refers to no phone number (default None); other restaurants are unchanged |
| RestaurantPhones.SetPhone | munch/migrations/0003_auto_20160202_0545.py:27 | the reference may be cleared (null=True) or set to a stored number; a dangling key is refused; no other restaurant changes |
| RestaurantPhones.DeletePhoneNumber | munch/migrations/0003_auto_20160202_0545.py:27 | after deletion no restaurant refers to the number; exactly the referring restaurants are removed (CASCADE); the others and their references are untouched; integrity is kept |
| RestaurantPhones.DeleteUnreferencedKeepsRestaurants | munch/migrations/0003_auto_20160202_0545.py:27 | deleting a number nobody refers to removes no restaurant |
| RestaurantPhones.DeleteIdempotent | munch/migrations/0003_auto_20160202_0545.py:27 | deleting a number a second time changes nothing |
| RestaurantPhones.AssignThenDeleteRemovesRestaurant | munch/migrations/0003_auto_20160202_0545.py:27 | a restaurant given a stored number is removed when that number is deleted |
| Promotions.FindLive | munch/viewsets/promotion.py:15 | the lookup returns a position holding the key with deleted false, and returns nothing exactly when no such row exists |
| Promotions.FindLiveUnique | munch/viewsets/promotion.py:15 | with unique keys a live row is found at its own position and a deleted row is never found |
| Permissions.HasObjectPermission | munch/permissions/promotion.py:4-7 | `has_object_permission`: granted exactly when the user has a restaurant and it is the promotion's restaurant |
| Permissions.DecisionReadsOnlyRestaurants | munch/permissions/promotion.py:4-7 | the decision depends only on the two restaurants: HTTP method, view, user flags and other promotion fields have no influence |
| Permissions.AtMostOneOwningRestaurant | munch/permissions/promotion.py:5 | two requests that both pass on one promotion act for the same restaurant |
| Aggregates.NumClaims | munch/viewsets/promotion.py:49-57 | the claim count is at most the number of claims, and is 0 exactly when no claim names the promotion |
| Aggregates.CountByRedeemed | munch/viewsets/promotion.py:73-74 | a conditional count never exceeds the promotion's claim count and is 0 exactly when no claim of the promotion has that redeemed flag |
| Aggregates.CountByRedeemedIsMultiplicity | munch/viewsets/promotion.py:73-74 | the conditional count for a flag equals the multiplicity of the (promotion key, flag) pair among the claims, so `claimed` counts unredeemed and `redeemed` counts redeemed claims |
| Aggregates.NumClaimsIsMultiplicity | munch/viewsets/promotion.py:53-56 | the grouped count equals the multiplicity of the promotion key among the claims' keys |
| Aggregates.ClaimedPlusRedeemed | munch/viewsets/promotion.py:72-78 | claimed plus redeemed equals the promotion's total claim count |
| Aggregates.NumClaimsAppend | munch/viewsets/promotion.py:53-56 | counts add over a split of the claim table |
| Aggregates.NewClaimCounted | munch/viewsets/promotion.py:53-56 | one more claim adds one to its promotion's count and nothing to any other |
| Aggregates.ListPromotions | munch/viewsets/promotion.py:47-59 | one row per promotion, in order, each carrying the promotion and the multiplicity of its key among the claims |
| Aggregates.ListZeroIffUnclaimed | munch/viewsets/promotion.py:49-50 | num_claims is 0 exactly when no claim names the promotion |
| Aggregates.ListShowsDeleted | munch/viewsets/promotion.py:47-59 | a deleted promotion still has its row |
| Aggregates.Owned | munch/viewsets/promotion.py:77 | each promotion of the restaurant appears exactly as often as in the table and no other promotion appears, so with unique keys each appears once |
| Aggregates.Details | munch/viewsets/promotion.py:71-79 | one row per promotion of the restaurant; claimed counts unredeemed claims, redeemed counts redeemed ones, and their sum is the multiplicity of the key among the claims |
| Aggregates.DetailsCountsByFlag | munch/viewsets/promotion.py:72-78 | each row's claimed is the number of its promotion's unredeemed claims and redeemed the number of its redeemed claims |
| Aggregates.DetailsScope | munch/viewsets/promotion.py:77 | the keys reported are exactly the keys of the restaurant's promotions, deleted or not |
| Aggregates.DetailsUnclaimedZero | munch/viewsets/promotion.py:72-78 | a promotion without claims reports 0 claimed and 0 redeemed |
| PromotionViewSet.Status | munch/viewsets/promotion.py:19-43 | status 200 exactly for the success responses (create included, not 201) and 400 exactly for validation failures |
| PromotionViewSet.CheckPermissions | munch/viewsets/promotion.py:17 | the view-level checks pass exactly for an authenticated user who is a restaurant where the route requires one; an unauthenticated user is always answered as unauthenticated; these checks never answer "not owner" |
| PromotionViewSet.Create | munch/viewsets/promotion.py:17-28 | a request failing the view-level checks (line 17) is denied with their answer and changes nothing; success exactly for an authenticated restaurant with valid input: one row appended under a fresh key owned by the acting restaurant and the new key returned; invalid input returns the errors with the store unchanged; a server error exactly when valid input comes from a user without a restaurant; integrity is kept |
| PromotionViewSet.Update | munch/viewsets/promotion.py:30-37 | a request failing the view-level checks is denied with their answer and changes nothing; any other denial is "not owner"; past them, 404 exactly when no live row has the key, a not-owner denial exactly for a non-owner of the live row; success exactly for the owner with valid input; invalid input returns the errors; success replaces only the target row, keeps its key, and returns the fixed message; every failure leaves the store unchanged |
| PromotionViewSet.Destroy | munch/viewsets/promotion.py:39-43 | a request failing the view-level checks is denied with their answer and changes nothing; any other denial is "not owner"; success exactly for the authenticated restaurant user who owns a live row, with the fixed message; the serializer's delete either removes the row or replaces it in place; the claim table is left as it is (see Left out); every failure leaves the store unchanged |
| PromotionViewSet.ListPromotionsView | munch/viewsets/promotion.py:45-66 | any authenticated user gets one row per promotion, deleted or not, with its claim count; others are denied; the store is unchanged |
| PromotionViewSet.DetailsView | munch/viewsets/promotion.py:68-83 | a request failing the authentication or restaurant check is denied with their answer; a restaurant user without a restaurant gets a server error; otherwise the user gets the `details` rows of exactly its own promotions, each with claimed = its unredeemed claims, redeemed = its redeemed claims; the store is unchanged |
| PromotionViewSet.CreateOwnerIgnoresInput | munch/viewsets/promotion.py:22 | whatever the input and serializer, the created row's owner is the acting restaurant |
| PromotionViewSet.CreatedPromotionPassesOwnerCheck | munch/viewsets/promotion.py:22 | a promotion created by restaurant R passes the owner check for any user of R |
| PromotionViewSet.CreatedThenUpdatable | munch/viewsets/promotion.py:19-37 | after a successful create, the creator's update of the new key gets past lookup and ownership |
| PromotionViewSet.DeletedNeverReached | munch/viewsets/promotion.py:15 | update and destroy never reach a deleted promotion: the answer is 404 or an earlier denial and the store is unchanged |
| PromotionViewSet.NonOwnerRejected | munch/viewsets/promotion.py:17 | another restaurant's update or destroy of a live promotion is denied and mutates nothing |
| PromotionViewSet.OwnerUpdateOutcome | munch/viewsets/promotion.py:30-37 | the owner's update returns 400 with the errors and no change on invalid input, and otherwise the message with only the target row changed, key kept |
| PromotionViewSet.ListExample | munch/viewsets/promotion.py:47-60 | promotions with 0 and 3 claims are listed with counts 0 and 3, the deleted one included |
| PromotionViewSet.DetailsExample | munch/viewsets/promotion.py:71-80 | a promotion with 2 unredeemed and 1 redeemed claim reports claimed 2, redeemed 1; another restaurant's promotion is absent |

## Left out

- Python regex details: `\d` also matches non-ASCII digits and `$` also matches before a trailing newline. The model uses ASCII digits and the exact end of the string.
- Django runs field validators on form, serializer or `full_clean` validation, not on a plain `save()`. `RestaurantPhones.AddPhoneNumber` models a validated write.
- PhoneNumbers.Validate: models the `full_clean` path on the value as stored. Form and serializer fields first strip surrounding whitespace; the model does not.
- RestaurantPhones.DeletePhoneNumber: the cascade stops at restaurants. What deleting a restaurant does to its promotions depends on the promotion model, which is not part of this model.
- Migration ordering, dependencies and schema generation.
- `IsRestaurant` and OAuth2 authentication are opaque booleans on the user (`munch/permissions/user.py` is not part of this model).
- PromotionViewSet.ListPromotionsView: does not model the `request.user.customer.id` lookup passed to the serializer as context. A user without a customer record would fail there; the model answers with the rows.
- PromotionViewSet.Create: the serializer's `create()` is assumed to store the row with the restaurant it is given and a fresh AutoField key. Its other columns come from the serializer and are not constrained.
- PromotionViewSet.Update: the serializer's `update()` is free to change any column except the primary key.
- PromotionViewSet.Destroy: in the hard-delete case the claims naming the removed promotion stay in the claim table. The claim model is not part of this model, so whether a database cascade would remove them is not modelled.
- PromotionViewSet.Status: 401 for a missing authentication assumes an authenticator that sends a challenge header; otherwise the framework answers 403.
- In create and details, a user without a restaurant who passes the view-level checks is answered with a server error. The exact exception depends on the unseen user and restaurant models. In update and destroy such a user fails the owner check and is denied.
- Response serialization and field projection, routing, and raw-SQL execution are left out; only the query semantics are modelled. Neither query has an ORDER BY, so the database promises no row order; the model chooses table order.
- Aggregates.CountByRedeemed: the comparisons `is_redeemed='f'` and `is_redeemed='t'` and the `%(restaurant)s` placeholder are read as PostgreSQL reads them (a boolean column compared with its text literals). Other backends differ and are not modelled: SQLite would report 0 for both, and MySQL would count the unredeemed claims in both columns.
- Offer columns (text, repetition, expiration, retail value, rating) are opaque; money and rating are integers, not decimals or floats.

=== FILE: aggregates.dfy ===
/** The two hand-written queries of the promotion viewset, as grouped counts over the
    promotion and claim tables. Neither query filters on the `deleted` flag. Rows come
    out in table order; the queries themselves promise no order. */
module Aggregates {
  import opened Base
  import opened Promotions

  /** The promotion key of every claim, in table order. */
  function Targets(claims: seq<Claim>): seq<PromotionId> {
    if |claims| == 0 then [] else [claims[0].promotion] + Targets(claims[1..])
  }

  /** `COUNT(*) ... GROUP BY promotion_id`, with the `CASE ... IS NULL THEN 0` default:
      the number of claims on promotion `pid`. */
  function NumClaims(claims: seq<Claim>, pid: PromotionId): (n: nat)
    ensures n <= |claims|
    ensures n == 0 <==> forall i :: 0 <= i < |claims| ==> claims[i].promotion != pid
  {
    if |claims| == 0 then 0
    else
      assert forall i :: 1 <= i < |claims| ==> claims[i] == claims[1..][i - 1];
      (if claims[0].promotion == pid then 1 else 0) + NumClaims(claims[1..], pid)
  }

  /** `COUNT(CASE WHEN is_redeemed=<flag> THEN 1 END)` over the claims joined to `pid`. */
  function CountByRedeemed(claims: seq<Claim>, pid: PromotionId, redeemed: bool): (n: nat)
    ensures n <= NumClaims(claims, pid)
    ensures n == 0 <==>
            forall i :: 0 <= i < |claims| ==> claims[i].promotion != pid || claims[i].isRedeemed != redeemed
  {
    if |claims| == 0 then 0
    else
      assert forall i :: 1 <= i < |claims| ==> claims[i] == claims[1..][i - 1];
      (if claims[0].promotion == pid && claims[0].isRedeemed == redeemed then 1 else 0)
      + CountByRedeemed(claims[1..], pid, redeemed)
  }

  /** The (promotion key, redeemed flag) pair of every claim, in table order. */
  function Tagged(claims: seq<Claim>): seq<(PromotionId, bool)> {
    if |claims| == 0 then [] else [(claims[0].promotion, claims[0].isRedeemed)] + Tagged(claims[1..])
  }

  /** The grouped count is the multiplicity of the key among the claims' keys. */
  lemma {:induction false} NumClaimsIsMultiplicity(claims: seq<Claim>, pid: PromotionId)
    ensures NumClaims(claims, pid) == multiset(Targets(claims))[pid]
  {
    if |claims| > 0 {
      NumClaimsIsMultiplicity(claims[1..], pid);
      assert multiset(Targets(claims)) == multiset([claims[0].promotion]) + multiset(Targets(claims[1..]));
    }
  }

  lemma NumClaimsIsMultiplicityAll(claims: seq<Claim>)
    ensures forall pid :: NumClaims(claims, pid) == multiset(Targets(claims))[pid]
  {
    forall pid ensures NumClaims(claims, pid) == multiset(Targets(claims))[pid] {
      NumClaimsIsMultiplicity(claims, pid);
    }
  }

  /** A conditional count is the multiplicity of the (key, flag) pair among the claims:
      `claimed` counts the claims with `is_redeemed` false, `redeemed` those with true. */
  lemma {:induction false} CountByRedeemedIsMultiplicity(claims: seq<Claim>, pid: PromotionId, redeemed: bool)
    ensures CountByRedeemed(claims, pid, redeemed) == multiset(Tagged(claims))[(pid, redeemed)]
  {
    if |claims| > 0 {
      CountByRedeemedIsMultiplicity(claims[1..], pid, redeemed);
      assert multiset(Tagged(claims))
             == multiset([(claims[0].promotion, claims[0].isRedeemed)]) + multiset(Tagged(claims[1..]));
    }
  }

  lemma CountByRedeemedIsMultiplicityAll(claims: seq<Claim>)
    ensures forall pid, redeemed ::
              CountByRedeemed(claims, pid, redeemed) == multiset(Tagged(claims))[(pid, redeemed)]
  {
    forall pid, redeemed
      ensures CountByRedeemed(claims, pid, redeemed) == multiset(Tagged(claims))[(pid, redeemed)]
    {
      CountByRedeemedIsMultiplicity(claims, pid, redeemed);
    }
  }

  /** Every claim is either outstanding or redeemed: the two conditional counts add up
      to the promotion's claim count. */
  lemma {:induction false} ClaimedPlusRedeemed(claims: seq<Claim>, pid: PromotionId)
    ensures CountByRedeemed(claims, pid, false) + CountByRedeemed(claims, pid, true)
            == NumClaims(claims, pid)
  {
    if |claims| > 0 {
      ClaimedPlusRedeemed(claims[1..], pid);
    }
  }

  /** Claim counts add over a split of the claim table. */
  lemma {:induction false} NumClaimsAppend(a: seq<Claim>, b: seq<Claim>, pid: PromotionId)
    ensures NumClaims(a + b, pid) == NumClaims(a, pid) + NumClaims(b, pid)
  {
    if |a| > 0 {
      assert (a + b)[1..] == a[1..] + b;
      NumClaimsAppend(a[1..], b, pid);
    } else {
      assert a + b == b;
    }
  }

  /** A new claim adds one to its promotion's count and nothing to any other. */
  lemma NewClaimCounted(claims: seq<Claim>, c: Claim, pid: PromotionId)
    ensures NumClaims(claims + [c], pid) == NumClaims(claims, pid) + (if c.promotion == pid then 1 else 0)
  {
    NumClaimsAppend(claims, [c], pid);
    assert [c][1..] == [];
  }

  /** A row of `list_promotions`: the promotion's columns and `num_claims`. */
  datatype ListRow = ListRow(promotion: Promotion, numClaims: nat)

  /** `SELECT DISTINCT p.*, num_claims FROM munch_promotion p LEFT OUTER JOIN (...)`:
      one row per promotion, deleted or not, each with its claim count. */
  function ListPromotions(ps: seq<Promotion>, claims: seq<Claim>): (rows: seq<ListRow>)
    ensures |rows| == |ps|
    ensures forall i :: 0 <= i < |ps| ==>
              rows[i].promotion == ps[i] && rows[i].numClaims == multiset(Targets(claims))[ps[i].id]
  {
    NumClaimsIsMultiplicityAll(claims);
    seq(|ps|, i requires 0 <= i < |ps| => ListRow(ps[i], NumClaims(claims, ps[i].id)))
  }

  /** A promotion nobody claimed is listed with `num_claims` 0, and only such a one. */
  lemma ListZeroIffUnclaimed(ps: seq<Promotion>, claims: seq<Claim>, i: nat)
    requires i < |ps|
    ensures ListPromotions(ps, claims)[i].numClaims == 0 <==>
            forall k :: 0 <= k < |claims| ==> claims[k].promotion != ps[i].id
  {
    NumClaimsIsMultiplicity(claims, ps[i].id);
  }

  /** A deleted promotion still gets its row. */
  lemma ListShowsDeleted(ps: seq<Promotion>, claims: seq<Claim>, i: nat)
    requires i < |ps| && ps[i].deleted
    ensures exists k :: 0 <= k < |ListPromotions(ps, claims)| &&
                        ListPromotions(ps, claims)[k].promotion == ps[i] &&
                        ListPromotions(ps, claims)[k].promotion.deleted
  {
    assert ListPromotions(ps, claims)[i].promotion == ps[i];
  }

  /** `WHERE p.restaurant_id = r`: the restaurant's promotions, in table order. */
  function Owned(ps: seq<Promotion>, r: RestaurantId): (os: seq<Promotion>)
    ensures |os| <= |ps|
    ensures forall p :: p in os <==> p in ps && p.restaurant == r
    ensures forall p :: multiset(os)[p] == if p.restaurant == r then multiset(ps)[p] else 0
  {
    if |ps| == 0 then []
    else
      assert ps == [ps[0]] + ps[1..];
      assert multiset(ps) == multiset([ps[0]]) + multiset(ps[1..]);
      (if ps[0].restaurant == r then [ps[0]] else []) + Owned(ps[1..], r)
  }

  /** A row of `details`: the promotion key with its outstanding and redeemed counts. */
  datatype DetailRow = DetailRow(id: PromotionId, claimed: nat, redeemed: nat)

  /** `SELECT p.id, claimed, redeemed ... LEFT OUTER JOIN munch_claim ... WHERE
      p.restaurant_id = r GROUP BY p.id`. */
  function Details(ps: seq<Promotion>, claims: seq<Claim>, r: RestaurantId): (rows: seq<DetailRow>)
    ensures |rows| == |Owned(ps, r)|
    ensures forall k :: 0 <= k < |rows| ==>
              && rows[k].id == Owned(ps, r)[k].id
              && rows[k].claimed == CountByRedeemed(claims, rows[k].id, false)
              && rows[k].redeemed == CountByRedeemed(claims, rows[k].id, true)
              && rows[k].claimed + rows[k].redeemed == multiset(Targets(claims))[rows[k].id]
  {
    var os := Owned(ps, r);
    NumClaimsIsMultiplicityAll(claims);
    ClaimedPlusRedeemedAll(claims);
    seq(|os|, k requires 0 <= k < |os| =>
      DetailRow(os[k].id, CountByRedeemed(claims, os[k].id, false), CountByRedeemed(claims, os[k].id, true)))
  }

  lemma ClaimedPlusRedeemedAll(claims: seq<Claim>)
    ensures forall pid :: CountByRedeemed(claims, pid, false) + CountByRedeemed(claims, pid, true)
                          == NumClaims(claims, pid)
  {
    forall pid ensures CountByRedeemed(claims, pid, false) + CountByRedeemed(claims, pid, true)
                       == NumClaims(claims, pid) {
      ClaimedPlusRedeemed(claims, pid);
    }
  }

  /** Each `details` row counts, per flag, the claims of its promotion carrying that flag:
      `claimed` the unredeemed ones and `redeemed` the redeemed ones. */
  lemma DetailsCountsByFlag(ps: seq<Promotion>, claims: seq<Claim>, r: RestaurantId)
    ensures var rows := Details(ps, claims, r);
            forall k :: 0 <= k < |rows| ==>
              && rows[k].claimed == multiset(Tagged(claims))[(rows[k].id, false)]
              && rows[k].redeemed == multiset(Tagged(claims))[(rows[k].id, true)]
  {
    CountByRedeemedIsMultiplicityAll(claims);
  }

  /** The keys of the restaurant's promotions, deleted or not. */
  function OwnedIds(ps: seq<Promotion>, r: RestaurantId): set<PromotionId> {
    set p | p in ps && p.restaurant == r :: p.id
  }

  function DetailIds(rows: seq<DetailRow>): set<PromotionId> {
    set k | 0 <= k < |rows| :: rows[k].id
  }

  /** The keys of the restaurant's promotions, read position by position off `Owned`. */
  lemma OwnedIdsByPosition(ps: seq<Promotion>, r: RestaurantId)
    ensures OwnedIds(ps, r) == set k | 0 <= k < |Owned(ps, r)| :: Owned(ps, r)[k].id
  {
    var os := Owned(ps, r);
    forall id | id in OwnedIds(ps, r) ensures exists k :: 0 <= k < |os| && os[k].id == id {
      var p :| p in ps && p.restaurant == r && p.id == id;
      assert p in os;
    }
    forall k | 0 <= k < |os| ensures os[k].id in OwnedIds(ps, r) {
      assert os[k] in os;
    }
  }

  /** `details` reports exactly the restaurant's own promotions, deleted or not: every
      row belongs to one of them, and each of them has a row. */
  lemma DetailsScope(ps: seq<Promotion>, claims: seq<Claim>, r: RestaurantId)
    ensures DetailIds(Details(ps, claims, r)) == OwnedIds(ps, r)
  {
    var rows := Details(ps, claims, r);
    var os := Owned(ps, r);
    OwnedIdsByPosition(ps, r);
    assert forall k :: 0 <= k < |rows| ==> rows[k].id == os[k].id;
    assert DetailIds(rows) == set k | 0 <= k < |os| :: os[k].id;
  }

  /** A promotion without claims reports 0 claimed and 0 redeemed. */
  lemma DetailsUnclaimedZero(ps: seq<Promotion>, claims: seq<Claim>, r: RestaurantId, k: nat)
    requires k < |Details(ps, claims, r)|
    requires forall i :: 0 <= i < |claims| ==> claims[i].promotion != Details(ps, claims, r)[k].id
    ensures Details(ps, claims, r)[k].claimed == 0 && Details(ps, claims, r)[k].redeemed == 0
  {
  }
}

=== FILE: base.dfy ===
/** Identifiers and the optional-value wrapper shared by every module of the model. */
module Base {

  /** An absent or present value; a nullable column or a lookup that may miss. */
  datatype Option<+T> = None | Some(value: T)

  /** Surrogate keys (Django AutoField primary keys). */
  type PromotionId = nat
  type RestaurantId = nat
  type PhoneId = nat
  type CustomerId = nat
}

=== FILE: permissions.dfy ===
/** `IsPromotionOwner`: the object-level permission of the promotion viewset. */
module Permissions {
  import opened Base
  import opened Promotions

  datatype HttpMethod = Get | Post | Put | Patch | Delete

  /** The acting user. Authentication and restaurant status are decided by components
      outside the model; `restaurant` is the user's restaurant, when it has one. */
  datatype User = User(authenticated: bool, isRestaurant: bool, restaurant: Option<RestaurantId>)

  datatype Request = Request(verb: HttpMethod, user: User)

  datatype Action = CreateAction | UpdateAction | DestroyAction | ListPromotionsAction | DetailsAction

  /** The view serving the request. */
  datatype View = View(action: Action)

  /** `has_object_permission`: the promotion's restaurant is the user's restaurant. */
  function HasObjectPermission(request: Request, view: View, obj: Promotion): (granted: bool)
    ensures granted <==> request.user.restaurant.Some? && request.user.restaurant.value == obj.restaurant
  {
    request.user.restaurant == Some(obj.restaurant)
  }

  /** The decision reads only the object's restaurant and the user's restaurant: the
      method, the view, the other user flags and the other promotion fields do not matter. */
  lemma DecisionReadsOnlyRestaurants(r1: Request, v1: View, o1: Promotion,
                                     r2: Request, v2: View, o2: Promotion)
    requires r1.user.restaurant == r2.user.restaurant
    requires o1.restaurant == o2.restaurant
    ensures HasObjectPermission(r1, v1, o1) == HasObjectPermission(r2, v2, o2)
  {
  }

  /** Two different restaurants never both pass the check on one promotion. */
  lemma AtMostOneOwningRestaurant(r1: Request, r2: Request, v: View, obj: Promotion)
    requires HasObjectPermission(r1, v, obj) && HasObjectPermission(r2, v, obj)
    ensures r1.user.restaurant == r2.user.restaurant
  {
  }
}

=== FILE: phone_numbers.dfy ===
/** The `PhoneNumber.phone_number` column: a CharField of at most 17 characters whose
    values must match `^\+?1?\d{9,15}$`. Digits are the ASCII digits and `$` is the
    exact end of the string. */
module PhoneNumbers {

  /** `max_length` of the column. */
  const MaxLength: nat := 17
  /** The bounds of `\d{9,15}`. */
  const MinRun: nat := 9
  const MaxRun: nat := 15

  /** The message the RegexValidator reports. */
  const FormatMessage: string :=
    "Phone number must be entered in the format: '+999999999'. Up to 15 digits allowed."

  predicate IsDigit(c: char) {
    '0' <= c <= '9'
  }

  predicate AllDigits(s: string) {
    forall i :: 0 <= i < |s| ==> IsDigit(s[i])
  }

  // The pattern, one regex element at a time; an optional element `x?` is
  // "skip it, or consume it", exactly as the regex engine backtracks.

  /** `\d{9,15}$` */
  predicate DigitRun(s: string) {
    MinRun <= |s| <= MaxRun && AllDigits(s)
  }

  /** `1?\d{9,15}$` */
  predicate OneThenRun(s: string) {
    DigitRun(s) || (|s| > 0 && s[0] == '1' && DigitRun(s[1..]))
  }

  /** `^\+?1?\d{9,15}$` */
  predicate MatchesPattern(s: string)
    ensures MatchesPattern(s) ==> MinRun <= |s| <= MaxLength && (s[0] == '+' || IsDigit(s[0]))
  {
    OneThenRun(s) || (|s| > 0 && s[0] == '+' && OneThenRun(s[1..]))
  }

  /** The string after an optional leading '+'. */
  function Body(s: string): string {
    if |s| > 0 && s[0] == '+' then s[1..] else s
  }

  /** An independent description of the accepted language: an optional '+', then
      9 to 16 digits, where a 16-digit body must begin with the optional '1'. */
  predicate PhoneShape(s: string) {
    var b := Body(s);
    AllDigits(b) && MinRun <= |b| <= MaxRun + 1 && (|b| == MaxRun + 1 ==> b[0] == '1')
  }

  /** Number of ASCII digits in `s`. */
  function DigitCount(s: string): (n: nat)
    ensures n <= |s|
  {
    if |s| == 0 then 0 else (if IsDigit(s[0]) then 1 else 0) + DigitCount(s[1..])
  }

  /** A validation error of the field. */
  datatype PhoneError =
    | Blank                                  // the field does not allow blank values
    | InvalidFormat(message: string)          // RegexValidator
    | TooLong(limit: nat, length: nat)       // MaxLengthValidator added by CharField

  /** Field validation as `full_clean` performs it on the stored value. The field is
      not `blank=True`, so the empty string is refused as blank before any validator
      runs. Otherwise every validator runs and all their errors are collected: the
      declared RegexValidator first, then the MaxLengthValidator that CharField appends. */
  function Validate(s: string): (errors: seq<PhoneError>)
    ensures errors == [] <==> MatchesPattern(s)
    ensures errors == [Blank] <==> s == ""
    ensures s != "" ==> Blank !in errors && (InvalidFormat(FormatMessage) in errors <==> !MatchesPattern(s))
    ensures s != "" && |s| <= MaxLength ==> errors == (if MatchesPattern(s) then [] else [InvalidFormat(FormatMessage)])
    ensures |errors| <= 2
    ensures TooLong(MaxLength, |s|) in errors <==> |s| > MaxLength
    ensures |s| > MaxLength ==> InvalidFormat(FormatMessage) in errors
  {
    if s == "" then [Blank]
    else
      var errors := (if MatchesPattern(s) then [] else [InvalidFormat(FormatMessage)])
                    + (if |s| <= MaxLength then [] else [TooLong(MaxLength, |s|)]);
      assert |errors| == 0 || errors[0] != Blank;
      errors
  }

  lemma OneThenRunShape(b: string)
    ensures OneThenRun(b) <==>
            (AllDigits(b) && MinRun <= |b| <= MaxRun + 1 && (|b| == MaxRun + 1 ==> b[0] == '1'))
  {
    if AllDigits(b) && |b| > 0 {
      assert AllDigits(b[1..]) by {
        forall i | 0 <= i < |b[1..]| ensures IsDigit(b[1..][i]) {
          assert b[1..][i] == b[i + 1];
        }
      }
    }
    if |b| > 0 && b[0] == '1' && DigitRun(b[1..]) {
      assert AllDigits(b) by {
        forall i | 0 <= i < |b| ensures IsDigit(b[i]) {
          if i > 0 { assert b[i] == b[1..][i - 1]; }
        }
      }
    }
  }

  /** The pattern accepts exactly the strings of `PhoneShape`. */
  lemma {:induction false} PatternShape(s: string)
    ensures MatchesPattern(s) <==> PhoneShape(s)
  {
    OneThenRunShape(Body(s));
    if |s| > 0 && s[0] == '+' {
      // '+' is neither '1' nor a digit, so only the branch consuming it can match.
      assert !IsDigit(s[0]);
      assert !OneThenRun(s);
    }
  }

  /** A string over the 17-character cap gets both errors, the format error first: the
      pattern never admits more than 17 characters, so the length error never comes alone. */
  lemma OverLongErrors(s: string)
    requires |s| > MaxLength
    ensures Validate(s) == [InvalidFormat(FormatMessage), TooLong(MaxLength, |s|)]
  {
    assert !MatchesPattern(s);
  }

  /** The 17-character cap is exactly the longest string the pattern admits. */
  lemma MaxLengthIsTight()
    ensures exists s :: MatchesPattern(s) && |s| == MaxLength
  {
    var s := "+1123456789012345";
    var run := "123456789012345";
    assert s[1..][1..] == run;
    assert AllDigits(run);
    assert OneThenRun(s[1..]);
    assert MatchesPattern(s) && |s| == MaxLength;
  }

  lemma AllDigitsCount(s: string)
    requires AllDigits(s)
    ensures DigitCount(s) == |s|
  {
    if |s| > 0 {
      assert AllDigits(s[1..]) by {
        forall i | 0 <= i < |s[1..]| ensures IsDigit(s[1..][i]) {
          assert s[1..][i] == s[i + 1];
        }
      }
      AllDigitsCount(s[1..]);
    }
  }

  /** An accepted number is digits except for a leading '+', and carries 9 to 16 digits. */
  lemma AcceptedDigits(s: string)
    requires MatchesPattern(s)
    ensures forall i :: 0 <= i < |s| ==> IsDigit(s[i]) || (i == 0 && s[i] == '+')
    ensures MinRun <= DigitCount(s) <= MaxRun + 1
  {
    PatternShape(s);
    var b := Body(s);
    AllDigitsCount(b);
    if |s| > 0 && s[0] == '+' {
      forall i | 0 < i < |s| ensures IsDigit(s[i]) {
        assert s[i] == b[i - 1];
      }
      assert s == [s[0]] + b;
      assert DigitCount(s) == DigitCount(b);
    }
  }

  /** Seventeen digits are too many, and fewer than nine digits are too few. */
  lemma DigitCountRejected(s: string)
    requires DigitCount(s) > MaxRun + 1 || DigitCount(s) < MinRun
    ensures !MatchesPattern(s)
    ensures Validate(s) != []
  {
    if MatchesPattern(s) {
      AcceptedDigits(s);
    }
  }

  lemma AcceptedExample()
    ensures MatchesPattern("+12345678901")
  {
    var s := "+12345678901";
    var run := "12345678901";
    assert s[1..] == run;
    assert AllDigits(run);
    assert DigitRun(s[1..]);
  }

  lemma RejectedExamples()
    ensures !MatchesPattern("abc123")
    ensures !MatchesPattern("12345678")
  {
    // both are shorter than any digit run the pattern needs
    assert |"abc123"| < MinRun && |"12345678"| < MinRun;
  }

  /** Seventeen digits exceed the pattern; sixteen are admitted exactly when the first
      is the optional '1', although the message speaks of at most 15 digits. */
  lemma SixteenAndSeventeenDigits(s: string)
    requires AllDigits(s)
    ensures |s| == MaxLength ==> !MatchesPattern(s)
    ensures |s| == MaxRun + 1 ==> (MatchesPattern(s) <==> s[0] == '1')
  {
    PatternShape(s);
    if |s| > 0 {
      assert IsDigit(s[0]);
    }
  }

  /** A single left-to-right scan deciding the field's validity: skip an optional '+',
      require digits to the end, then check the body length and the 16-digit case. */
  method CheckPhoneNumber(s: string) returns (ok: bool)
    ensures ok <==> Validate(s) == []
  {
    if |s| > MaxLength {
      return false;
    }
    var start := if |s| > 0 && s[0] == '+' then 1 else 0;
    var i := start;
    while i < |s|
      invariant start <= i <= |s|
      invariant forall k :: start <= k < i ==> IsDigit(s[k])
    {
      if !IsDigit(s[i]) {
        PatternShape(s);
        assert !IsDigit(Body(s)[i - start]);
        return false;
      }
      i := i + 1;
    }
    var n := |s| - start;
    ok := MinRun <= n <= MaxRun + 1 && (n == MaxRun + 1 ==> s[start] == '1');
    PatternShape(s);
    assert Body(s) == s[start..];
    assert AllDigits(Body(s)) by {
      forall k | 0 <= k < |Body(s)| ensures IsDigit(Body(s)[k]) {
        assert Body(s)[k] == s[start + k];
      }
    }
  }
}

=== FILE: promotion_viewset.dfy ===
/** `PromotionViewSet`: the request handlers of the promotion resource. Each handler
    takes the store and the request and returns the new store with the response. */
module PromotionViewSet {
  import opened Base
  import opened Promotions
  import opened Permissions
  import opened Aggregates

  const UpdatedMessage: string := "Promotion updated successfully!"
  const DeletedMessage: string := "Promotion deleted successfully"

  /** Why a request was turned away before reaching its handler's body. */
  datatype Denial = Unauthenticated | NotRestaurant | NotOwner

  datatype FieldError = FieldError(field: string, message: string)

  /** The request body as the serializer receives it. */
  datatype Input = Input(fields: map<string, string>)

  /** `PromotionSerializer`, whose code is not part of this model, as four total
      functions: the errors `is_valid()` finds (valid exactly when there are none), the
      row `create()` builds from the data, the row `update()` makes of an existing one,
      and what `delete()` leaves in the row's place: nothing (a hard delete) or a
      changed row (a soft delete). Which of the two it does is left open. */
  datatype Serializer = Serializer(
    errors: Input -> seq<FieldError>,
    build: Input -> Promotion,
    apply: (Promotion, Input) -> Promotion,
    erase: Promotion -> Option<Promotion>)

  datatype Response =
    | OkId(id: PromotionId)
    | OkMessage(message: string)
    | OkList(rows: seq<ListRow>)
    | OkDetails(details: seq<DetailRow>)
    | BadRequest(errors: seq<FieldError>)
    | NotFound
    | Denied(reason: Denial)
    | ServerError      // an exception escaping the handler

  datatype Reply = Reply(store: Store, response: Response)

  /** The HTTP status of a response; create answers 200, not 201. */
  function Status(r: Response): (code: nat)
    ensures code == 200 <==> r.OkId? || r.OkMessage? || r.OkList? || r.OkDetails?
    ensures code == 400 <==> r.BadRequest?
  {
    match r
    case OkId(_) => 200
    case OkMessage(_) => 200
    case OkList(_) => 200
    case OkDetails(_) => 200
    case BadRequest(_) => 400
    case NotFound => 404
    case Denied(Unauthenticated) => 401
    case Denied(_) => 403
    case ServerError => 500
  }

  /** The view-level checks run before the handler: authentication and, when the
      route lists `IsRestaurant`, restaurant status. When no authenticator accepted the
      request, any failing check is reported as missing authentication. */
  function CheckPermissions(user: User, needsRestaurant: bool): (denial: Option<Denial>)
    ensures denial.None? <==> user.authenticated && (needsRestaurant ==> user.isRestaurant)
    ensures denial == Some(Unauthenticated) <==> !user.authenticated
    ensures denial.Some? ==> denial.value != NotOwner
  {
    if !user.authenticated then Some(Unauthenticated)
    else if needsRestaurant && !user.isRestaurant then Some(NotRestaurant)
    else None
  }

  /** `create`: validate, then store a new promotion owned by the acting user's
      restaurant, whatever restaurant the input names. */
  function Create(st: Store, req: Request, input: Input, ser: Serializer): (r: Reply)
    ensures r.response.OkId? <==>
              && req.user.authenticated && req.user.isRestaurant
              && ser.errors(input) == [] && req.user.restaurant.Some?
    ensures r.response.OkId? ==>
              && |r.store.promotions| == |st.promotions| + 1
              && r.store.promotions[..|st.promotions|] == st.promotions
              && r.store.promotions[|st.promotions|].id == r.response.id
              && r.store.promotions[|st.promotions|].restaurant == req.user.restaurant.value
              && r.store.promotions[|st.promotions|].offer == ser.build(input).offer
              && r.store.claims == st.claims
    ensures CheckPermissions(req.user, true).Some? ==>
              r == Reply(st, Denied(CheckPermissions(req.user, true).value))
    ensures r.response.BadRequest? <==>
              req.user.authenticated && req.user.isRestaurant && ser.errors(input) != []
    ensures r.response.BadRequest? ==> r.response.errors == ser.errors(input)
    ensures r.response.ServerError? <==>
              && req.user.authenticated && req.user.isRestaurant
              && ser.errors(input) == [] && req.user.restaurant.None?
    ensures !r.response.OkId? ==> r.store == st
    ensures WellFormed(st) ==> WellFormed(r.store)
    ensures WellFormed(st) && r.response.OkId? ==>
              forall i :: 0 <= i < |st.promotions| ==> st.promotions[i].id != r.response.id
  {
    match CheckPermissions(req.user, true)
    case Some(denial) => Reply(st, Denied(denial))
    case None =>
      var errors := ser.errors(input);
      if errors != [] then Reply(st, BadRequest(errors))
      else match req.user.restaurant
        case None => Reply(st, ServerError)
        case Some(owner) =>
          var row := ser.build(input).(id := st.nextId, restaurant := owner);
          var st' := st.(promotions := st.promotions + [row], nextId := st.nextId + 1);
          assert st'.promotions[..|st.promotions|] == st.promotions;
          Reply(st', OkId(row.id))
  }

  /** `update`: find the live promotion, check ownership, validate, then replace the
      row by what the serializer makes of it. The primary key is not writable. */
  function Update(st: Store, req: Request, id: PromotionId, input: Input, ser: Serializer): (r: Reply)
    ensures r.response.OkMessage? || r.response.BadRequest? || r.response.NotFound? || r.response.Denied?
    ensures CheckPermissions(req.user, true).Some? ==>
              r == Reply(st, Denied(CheckPermissions(req.user, true).value))
    ensures r.response.NotFound? <==>
              req.user.authenticated && req.user.isRestaurant && FindLive(st.promotions, id).None?
    ensures r.response.Denied? && r.response.reason == NotOwner <==>
              && req.user.authenticated && req.user.isRestaurant
              && FindLive(st.promotions, id).Some?
              && !HasObjectPermission(req, View(UpdateAction), st.promotions[FindLive(st.promotions, id).value])
    ensures r.response.BadRequest? ==> r.response.errors == ser.errors(input) && r.response.errors != []
    ensures r.response.Denied? ==>
              r.response.reason == NotOwner || CheckPermissions(req.user, true) == Some(r.response.reason)
    ensures r.response.OkMessage? <==>
              && req.user.authenticated && req.user.isRestaurant
              && FindLive(st.promotions, id).Some?
              && HasObjectPermission(req, View(UpdateAction), st.promotions[FindLive(st.promotions, id).value])
              && ser.errors(input) == []
    ensures r.response.OkMessage? ==>
              && r.response.message == UpdatedMessage
              && ser.errors(input) == []
              && FindLive(st.promotions, id).Some?
              && var i := FindLive(st.promotions, id).value;
                 && req.user.restaurant == Some(st.promotions[i].restaurant)
                 && r.store == st.(promotions := st.promotions[i := ser.apply(st.promotions[i], input).(id := id)])
    ensures !r.response.OkMessage? ==> r.store == st
    ensures WellFormed(st) ==> WellFormed(r.store)
  {
    match CheckPermissions(req.user, true)
    case Some(denial) => Reply(st, Denied(denial))
    case None =>
      match FindLive(st.promotions, id)
      case None => Reply(st, NotFound)
      case Some(i) =>
        var instance := st.promotions[i];
        if !HasObjectPermission(req, View(UpdateAction), instance) then Reply(st, Denied(NotOwner))
        else
          var errors := ser.errors(input);
          if errors != [] then Reply(st, BadRequest(errors))
          else
            var row := ser.apply(instance, input).(id := id);
            Reply(st.(promotions := st.promotions[i := row]), OkMessage(UpdatedMessage))
  }

  /** `destroy`: find the live promotion, check ownership, then let the serializer's
      delete remove the row or leave a changed row in its place. */
  function Destroy(st: Store, req: Request, id: PromotionId, ser: Serializer): (r: Reply)
    ensures r.response.OkMessage? || r.response.NotFound? || r.response.Denied?
    ensures r.response.Denied? ==>
              r.response.reason == NotOwner || CheckPermissions(req.user, true) == Some(r.response.reason)
    ensures CheckPermissions(req.user, true).Some? ==>
              r == Reply(st, Denied(CheckPermissions(req.user, true).value))
    ensures r.response.NotFound? <==>
              req.user.authenticated && req.user.isRestaurant && FindLive(st.promotions, id).None?
    ensures r.response.OkMessage? ==>
              && r.response.message == DeletedMessage
              && FindLive(st.promotions, id).Some?
              && var i := FindLive(st.promotions, id).value;
                 && req.user.restaurant == Some(st.promotions[i].restaurant)
                 && r.store.claims == st.claims
                 && (ser.erase(st.promotions[i]).None? ==>
                       r.store.promotions == st.promotions[..i] + st.promotions[i + 1..])
                 && (ser.erase(st.promotions[i]).Some? ==>
                       r.store.promotions == st.promotions[i := ser.erase(st.promotions[i]).value.(id := id)])
    ensures r.response.OkMessage? <==>
              && req.user.authenticated && req.user.isRestaurant
              && FindLive(st.promotions, id).Some?
              && HasObjectPermission(req, View(DestroyAction), st.promotions[FindLive(st.promotions, id).value])
    ensures !r.response.OkMessage? ==> r.store == st
    ensures WellFormed(st) ==> WellFormed(r.store)
  {
    match CheckPermissions(req.user, true)
    case Some(denial) => Reply(st, Denied(denial))
    case None =>
      match FindLive(st.promotions, id)
      case None => Reply(st, NotFound)
      case Some(i) =>
        var instance := st.promotions[i];
        if !HasObjectPermission(req, View(DestroyAction), instance) then Reply(st, Denied(NotOwner))
        else
          var ps := st.promotions;
          var remaining := match ser.erase(instance)
            case None => ps[..i] + ps[i + 1..]
            case Some(row) => ps[i := row.(id := id)];
          Reply(st.(promotions := remaining), OkMessage(DeletedMessage))
  }

  /** `list_promotions`: any authenticated user sees every promotion, deleted or not,
      with its claim count. */
  function ListPromotionsView(st: Store, req: Request): (r: Reply)
    ensures r.store == st
    ensures r.response.OkList? <==> req.user.authenticated
    ensures !r.response.OkList? ==> r.response == Denied(Unauthenticated)
    ensures r.response.OkList? ==>
              && |r.response.rows| == |st.promotions|
              && forall i :: 0 <= i < |st.promotions| ==>
                   && r.response.rows[i].promotion == st.promotions[i]
                   && r.response.rows[i].numClaims == multiset(Targets(st.claims))[st.promotions[i].id]
  {
    match CheckPermissions(req.user, false)
    case Some(denial) => Reply(st, Denied(denial))
    case None => Reply(st, OkList(ListPromotions(st.promotions, st.claims)))
  }

  /** `details`: an authenticated restaurant sees, for each of its own promotions,
      deleted or not, the outstanding and redeemed claim counts. */
  function DetailsView(st: Store, req: Request): (r: Reply)
    ensures r.store == st
    ensures CheckPermissions(req.user, true).Some? ==>
              r == Reply(st, Denied(CheckPermissions(req.user, true).value))
    ensures r.response.OkDetails? <==>
              req.user.authenticated && req.user.isRestaurant && req.user.restaurant.Some?
    ensures r.response.OkDetails? || r.response.Denied? || r.response.ServerError?
    ensures r.response.ServerError? <==>
              req.user.authenticated && req.user.isRestaurant && req.user.restaurant.None?
    ensures r.response.OkDetails? ==>
              && r.response.details == Details(st.promotions, st.claims, req.user.restaurant.value)
              && DetailIds(r.response.details) == OwnedIds(st.promotions, req.user.restaurant.value)
              && (forall k :: 0 <= k < |r.response.details| ==>
                    && r.response.details[k].claimed == multiset(Tagged(st.claims))[(r.response.details[k].id, false)]
                    && r.response.details[k].redeemed == multiset(Tagged(st.claims))[(r.response.details[k].id, true)])
              && forall k :: 0 <= k < |r.response.details| ==>
                   r.response.details[k].claimed + r.response.details[k].redeemed
                   == multiset(Targets(st.claims))[r.response.details[k].id]
  {
    match CheckPermissions(req.user, true)
    case Some(denial) => Reply(st, Denied(denial))
    case None =>
      match req.user.restaurant
      case None => Reply(st, ServerError)
      case Some(owner) =>
        DetailsScope(st.promotions, st.claims, owner);
        DetailsCountsByFlag(st.promotions, st.claims, owner);
        Reply(st, OkDetails(Details(st.promotions, st.claims, owner)))
  }

  /** The owner of a created promotion is the acting restaurant for every input and
      every serializer: nothing in the request body can choose it. */
  lemma CreateOwnerIgnoresInput(st: Store, req: Request, in1: Input, ser1: Serializer,
                                in2: Input, ser2: Serializer)
    requires Create(st, req, in1, ser1).response.OkId?
    requires Create(st, req, in2, ser2).response.OkId?
    ensures Create(st, req, in1, ser1).store.promotions[|st.promotions|].restaurant
            == Create(st, req, in2, ser2).store.promotions[|st.promotions|].restaurant
            == req.user.restaurant.value
  {
  }

  /** A promotion created by restaurant R passes the owner check for any user of R. */
  lemma CreatedPromotionPassesOwnerCheck(st: Store, req: Request, input: Input, ser: Serializer,
                                         other: Request, view: View)
    requires Create(st, req, input, ser).response.OkId?
    requires other.user.restaurant == req.user.restaurant
    ensures HasObjectPermission(other, view, Create(st, req, input, ser).store.promotions[|st.promotions|])
  {
  }

  /** The creator can then update its new promotion (when the serializer did not build
      it already deleted): the request gets past the lookup and the owner check. */
  lemma CreatedThenUpdatable(st: Store, req: Request, input: Input, ser: Serializer,
                             change: Input, ser2: Serializer)
    requires WellFormed(st)
    requires Create(st, req, input, ser).response.OkId?
    requires !ser.build(input).deleted
    ensures var created := Create(st, req, input, ser);
            var r := Update(created.store, req, created.response.id, change, ser2);
            r.response.OkMessage? || r.response.BadRequest?
  {
    var created := Create(st, req, input, ser);
    FindLiveUnique(created.store.promotions, |st.promotions|);
  }

  /** update and destroy resolve only promotions whose `deleted` flag is false: a
      deleted promotion is answered as missing (or denied earlier) and stays untouched. */
  lemma DeletedNeverReached(st: Store, req: Request, i: nat, input: Input, ser: Serializer)
    requires WellFormed(st)
    requires i < |st.promotions| && st.promotions[i].deleted
    ensures var r := Update(st, req, st.promotions[i].id, input, ser);
            r.store == st && (r.response.NotFound? || r.response.Denied?) && r.response != Denied(NotOwner)
    ensures var r := Destroy(st, req, st.promotions[i].id, ser);
            r.store == st && (r.response.NotFound? || r.response.Denied?) && r.response != Denied(NotOwner)
  {
    FindLiveUnique(st.promotions, i);
  }

  /** A restaurant that does not own a live promotion can neither update nor delete it,
      and the store is left as it was. */
  lemma NonOwnerRejected(st: Store, req: Request, i: nat, input: Input, ser: Serializer)
    requires WellFormed(st)
    requires i < |st.promotions| && !st.promotions[i].deleted
    requires req.user.authenticated && req.user.isRestaurant
    requires req.user.restaurant != Some(st.promotions[i].restaurant)
    ensures Update(st, req, st.promotions[i].id, input, ser) == Reply(st, Denied(NotOwner))
    ensures Destroy(st, req, st.promotions[i].id, ser) == Reply(st, Denied(NotOwner))
  {
    FindLiveUnique(st.promotions, i);
  }

  /** The owner's update with invalid input is refused with the serializer's errors, and
      with valid input replaces exactly the target row. */
  lemma OwnerUpdateOutcome(st: Store, req: Request, i: nat, input: Input, ser: Serializer)
    requires WellFormed(st)
    requires i < |st.promotions| && !st.promotions[i].deleted
    requires req.user.authenticated && req.user.isRestaurant
    requires req.user.restaurant == Some(st.promotions[i].restaurant)
    ensures var r := Update(st, req, st.promotions[i].id, input, ser);
            && (ser.errors(input) != [] ==> r == Reply(st, BadRequest(ser.errors(input))))
            && (ser.errors(input) == [] ==>
                  && r.response == OkMessage(UpdatedMessage)
                  && |r.store.promotions| == |st.promotions|
                  && r.store.promotions[i].id == st.promotions[i].id
                  && forall k :: 0 <= k < |st.promotions| && k != i ==> r.store.promotions[k] == st.promotions[k])
  {
    FindLiveUnique(st.promotions, i);
  }

  /** Two promotions, the second deleted and claimed three times: both are listed, with
      counts 0 and 3. */
  lemma ListExample(req: Request)
    requires req.user.authenticated
    ensures var o := Offer("", "", 0, 0, 0);
            var p1 := Promotion(1, 7, o, false);
            var p2 := Promotion(2, 7, o, true);
            var claims := [Claim(2, 10, false), Claim(2, 11, true), Claim(2, 12, false)];
            ListPromotionsView(Store([p1, p2], claims, 3), req).response
            == OkList([ListRow(p1, 0), ListRow(p2, 3)])
  {
    var o := Offer("", "", 0, 0, 0);
    var p1 := Promotion(1, 7, o, false);
    var p2 := Promotion(2, 7, o, true);
    var claims := [Claim(2, 10, false), Claim(2, 11, true), Claim(2, 12, false)];
    assert Targets(claims) == [2, 2, 2];
    assert multiset(Targets(claims))[1] == 0;
    assert multiset(Targets(claims))[2] == 3;
  }

  /** A promotion with two outstanding claims and one redeemed claim reports 2 and 1;
      another restaurant's promotion is not reported. */
  lemma DetailsExample(req: Request)
    requires req.user.authenticated && req.user.isRestaurant && req.user.restaurant == Some(7)
    ensures var o := Offer("", "", 0, 0, 0);
            var ps := [Promotion(1, 7, o, false), Promotion(2, 8, o, false)];
            var claims := [Claim(1, 10, false), Claim(1, 11, true), Claim(1, 12, false), Claim(2, 13, true)];
            DetailsView(Store(ps, claims, 3), req).response == OkDetails([DetailRow(1, 2, 1)])
  {
    var o := Offer("", "", 0, 0, 0);
    var ps := [Promotion(1, 7, o, false), Promotion(2, 8, o, false)];
    var claims := [Claim(1, 10, false), Claim(1, 11, true), Claim(1, 12, false), Claim(2, 13, true)];
    assert Owned(ps, 7) == [ps[0]] by {
      assert ps[1..] == [ps[1]];
      assert Owned(ps[1..][1..], 7) == [];
    }
    assert CountByRedeemed(claims, 1, false) == 2 by {
      assert claims[1..][1..][1..][1..] == [];
    }
    assert CountByRedeemed(claims, 1, true) == 1 by {
      assert claims[1..][1..][1..][1..] == [];
    }
    var rows := Details(ps, claims, 7);
    assert |rows| == 1 && rows[0] == DetailRow(1, 2, 1);
    assert rows == [DetailRow(1, 2, 1)];
  }
}

=== FILE: promotions.dfy ===
/** The promotion and claim tables the viewset works on. */
module Promotions {
  import opened Base

  /** The offer's descriptive columns; the viewset never inspects them. Money and
      rating are kept as integers. */
  datatype Offer = Offer(
    text: string,
    repetition: string,
    expiration: int,
    retailValue: int,
    rating: int)

  /** A row of `munch_promotion`: owned by exactly one restaurant, soft-delete flag. */
  datatype Promotion = Promotion(
    id: PromotionId,
    restaurant: RestaurantId,
    offer: Offer,
    deleted: bool)

  /** A row of `munch_claim`: a customer's claim on a promotion. */
  datatype Claim = Claim(promotion: PromotionId, customer: CustomerId, isRedeemed: bool)

  /** Both tables, rows in primary-key order, and the promotion AutoField counter. */
  datatype Store = Store(promotions: seq<Promotion>, claims: seq<Claim>, nextId: PromotionId)

  predicate UniqueIds(ps: seq<Promotion>) {
    forall i, j :: 0 <= i < j < |ps| ==> ps[i].id != ps[j].id
  }

  /** Primary keys are unique and below the counter. */
  predicate WellFormed(st: Store) {
    UniqueIds(st.promotions) && forall i :: 0 <= i < |st.promotions| ==> st.promotions[i].id < st.nextId
  }

  /** `Promotion.objects.filter(deleted=False).get(pk=id)`: the position of the live
      promotion with this key, if any. */
  function FindLive(ps: seq<Promotion>, id: PromotionId): (r: Option<nat>)
    ensures r.Some? ==> r.value < |ps| && ps[r.value].id == id && !ps[r.value].deleted
    ensures r.None? <==> forall i :: 0 <= i < |ps| ==> ps[i].id != id || ps[i].deleted
  {
    if |ps| == 0 then None
    else if ps[0].id == id && !ps[0].deleted then Some(0)
    else match FindLive(ps[1..], id)
      case None => (assert forall i :: 1 <= i < |ps| ==> ps[i] == ps[1..][i - 1]; None)
      case Some(j) => Some(j + 1)
  }

  /** With unique keys the lookup finds the one row holding the key, when it is live. */
  lemma FindLiveUnique(ps: seq<Promotion>, i: nat)
    requires UniqueIds(ps) && i < |ps|
    ensures !ps[i].deleted ==> FindLive(ps, ps[i].id) == Some(i)
    ensures ps[i].deleted ==> FindLive(ps, ps[i].id).None?
  {
  }
}

=== FILE: restaurant_phones.dfy ===
/** The `PhoneNumber` table and the `Restaurant.phone_number` column that refers to it:
    a nullable foreign key, absent by default, whose referencing restaurants are deleted
    together with the phone number (on_delete CASCADE). */
module RestaurantPhones {
  import opened Base
  import PhoneNumbers

  /** The two tables: phone numbers by key, and each restaurant's (nullable) reference. */
  datatype Directory = Directory(
    numbers: map<PhoneId, string>,
    restaurants: map<RestaurantId, Option<PhoneId>>,
    nextPhoneId: PhoneId)

  /** `default=None`: a restaurant created without a phone number refers to none. */
  const DefaultPhone: Option<PhoneId> := None

  datatype DirectoryError =
    | InvalidNumber(errors: seq<PhoneNumbers.PhoneError>)
    | DuplicateRestaurant
    | UnknownRestaurant
    | UnknownPhoneNumber     // the foreign key constraint refuses a dangling reference

  datatype Outcome = Done(directory: Directory) | Refused(error: DirectoryError)

  predicate RefersTo(d: Directory, rid: RestaurantId, pid: PhoneId) {
    rid in d.restaurants && d.restaurants[rid] == Some(pid)
  }

  /** The database's integrity: stored numbers pass validation, keys stay below the
      AutoField counter, and every present reference names a stored number. */
  predicate Consistent(d: Directory) {
    && (forall pid :: pid in d.numbers ==> pid < d.nextPhoneId)
    && (forall pid :: pid in d.numbers ==> PhoneNumbers.Validate(d.numbers[pid]) == [])
    && (forall rid :: rid in d.restaurants && d.restaurants[rid].Some? ==>
          d.restaurants[rid].value in d.numbers)
  }

  /** Insert a phone number; the key comes from the AutoField counter. */
  function AddPhoneNumber(d: Directory, number: string): (r: Outcome)
    requires Consistent(d)
    ensures r.Done? <==> PhoneNumbers.MatchesPattern(number)
    ensures r.Refused? ==> r.error == InvalidNumber(PhoneNumbers.Validate(number))
    ensures r.Done? ==>
              && d.nextPhoneId !in d.numbers
              && r.directory.numbers == d.numbers[d.nextPhoneId := number]
              && r.directory.restaurants == d.restaurants
              && Consistent(r.directory)
  {
    var errors := PhoneNumbers.Validate(number);
    if errors != [] then Refused(InvalidNumber(errors))
    else Done(d.(numbers := d.numbers[d.nextPhoneId := number], nextPhoneId := d.nextPhoneId + 1))
  }

  /** Insert a restaurant that does not set its phone number. */
  function AddRestaurant(d: Directory, rid: RestaurantId): (r: Outcome)
    ensures r.Done? <==> rid !in d.restaurants
    ensures r.Done? ==>
              && rid in r.directory.restaurants
              && r.directory.restaurants[rid].None?
              && r.directory.numbers == d.numbers
              && (forall q :: q in d.restaurants ==>
                    q in r.directory.restaurants && r.directory.restaurants[q] == d.restaurants[q])
    ensures r.Done? && Consistent(d) ==> Consistent(r.directory)
  {
    if rid in d.restaurants then Refused(DuplicateRestaurant)
    else Done(d.(restaurants := d.restaurants[rid := DefaultPhone]))
  }

  /** Point a restaurant at a phone number, or clear it (`null=True`). */
  function SetPhone(d: Directory, rid: RestaurantId, phone: Option<PhoneId>): (r: Outcome)
    ensures r.Done? <==> rid in d.restaurants && (phone.Some? ==> phone.value in d.numbers)
    ensures r.Refused? && rid in d.restaurants ==> r.error == UnknownPhoneNumber
    ensures r.Done? ==>
              && r.directory.restaurants.Keys == d.restaurants.Keys
              && r.directory.restaurants[rid] == phone
              && r.directory.numbers == d.numbers
              && (forall q :: q in d.restaurants && q != rid ==>
                    r.directory.restaurants[q] == d.restaurants[q])
    ensures r.Done? && Consistent(d) ==> Consistent(r.directory)
  {
    if rid !in d.restaurants then Refused(UnknownRestaurant)
    else if phone.Some? && phone.value !in d.numbers then Refused(UnknownPhoneNumber)
    else Done(d.(restaurants := d.restaurants[rid := phone]))
  }

  /** Delete a phone number; CASCADE deletes every restaurant that refers to it. */
  function DeletePhoneNumber(d: Directory, pid: PhoneId): (r: Directory)
    ensures pid !in r.numbers
    ensures forall q :: q in d.numbers && q != pid ==> q in r.numbers && r.numbers[q] == d.numbers[q]
    ensures r.numbers.Keys <= d.numbers.Keys
    ensures forall rid :: !RefersTo(r, rid, pid)
    ensures forall rid :: rid in r.restaurants <==> rid in d.restaurants && !RefersTo(d, rid, pid)
    ensures forall rid :: rid in r.restaurants ==> r.restaurants[rid] == d.restaurants[rid]
    ensures Consistent(d) ==> Consistent(r)
  {
    Directory(
      map q | q in d.numbers && q != pid :: d.numbers[q],
      map rid | rid in d.restaurants && d.restaurants[rid] != Some(pid) :: d.restaurants[rid],
      d.nextPhoneId)
  }

  /** Deleting a number nobody refers to removes no restaurant. */
  lemma DeleteUnreferencedKeepsRestaurants(d: Directory, pid: PhoneId)
    requires forall rid :: !RefersTo(d, rid, pid)
    ensures DeletePhoneNumber(d, pid).restaurants == d.restaurants
  {
    var r := DeletePhoneNumber(d, pid);
    assert r.restaurants.Keys == d.restaurants.Keys;
  }

  /** Deleting the same number twice is the same as deleting it once. */
  lemma DeleteIdempotent(d: Directory, pid: PhoneId)
    ensures DeletePhoneNumber(DeletePhoneNumber(d, pid), pid) == DeletePhoneNumber(d, pid)
  {
    var once := DeletePhoneNumber(d, pid);
    DeleteUnreferencedKeepsRestaurants(once, pid);
    assert DeletePhoneNumber(once, pid).numbers == once.numbers;
  }

  /** A new restaurant can be given a number and later lose it to the number's deletion. */
  lemma AssignThenDeleteRemovesRestaurant(d: Directory, rid: RestaurantId, pid: PhoneId)
    requires rid in d.restaurants && pid in d.numbers
    ensures SetPhone(d, rid, Some(pid)).Done?
    ensures rid !in DeletePhoneNumber(SetPhone(d, rid, Some(pid)).directory, pid).restaurants
  {
  }
}
